=== FILE: README.md ===
# EcoQuant carbon-credit ledger, in Dafny

A model of the carbon-credit ledger and marketplace engine of the EcoQuant web
application (`app.py`), read as a state machine over four tables: projects (owner
only), credit lots (`carbon_credits`: owner, project, earned, used, listed, value,
source, status), marketplace listings (lot, seller, `quantity_available`, price,
`active`/`sold`) and the append-only transaction log (`LISTING` and `PURCHASE`
rows). Every mutating handler is one database transaction; in the model it is a
pure function returning `Ok(newLedger)` on commit or `Err(kind)` on rollback, so a
rejected request changes nothing. Quantities are exact `real`s.

Modules:

- `Wrappers` (`wrappers.dfy`): `Option`, `Result`.
- `Sums` (`sums.dfy`): sums over id ranges and the lemmas that move them.
- `Ledger` (`ledger.dfy`): the state, `Available`, the reservation total of a lot,
  and the ledger invariant `Valid`: every lot has `0 <= used`, `0 <= listed`,
  `used + listed <= earned`; active listings hold a positive quantity; and the
  active listings on a lot together reserve no more than its `listed`.
- `Listings` (`listings.dfy`): the two listing handlers, `delete_listing`, and the
  browse filter.
- `Trade` (`trade.dfy`): one `Purchase` behind the three purchase handlers,
  parameterised by when the destination project is checked and by the payment
  reference recorded.
- `Issuance` (`issuance.dfy`): the lots issued by `save_project` and `add_carbon_credit`.
- `Preservation`, `Conservation` (`preservation.dfy`, `conservation.dfy`): the
  invariant kept by every operation, conservation of credits across a purchase,
  and no oversell over any run of purchases.
- `Findings` (`findings.dfy`): the four defects below, shown on concrete ledgers.
- `Fixtures` (`fixtures.dfy`): the seller, the buyer and the starting ledger shared by `Findings` and `Scenarios`.
- `Scenarios` (`scenarios.dfy`): the full-sale, partial-sale and racing-buyers scenarios.
- `ProjectStatus` (`project_status.dfy`): `calculate_project_status`.
- `Recommendations` (`recommendations.dfy`): assembly and title de-duplication in
  `generate_recommendations`, and the second de-duplication in `save_project`.

Points where the code behaves differently from what the handlers' names and messages suggest:

- Deleting a listing removes the row only. The lot's `listed` is not given back, and
  there is no `cancelled` status (`Preservation.DeleteStrandsReservation`).
- The three purchase handlers do not check in the same order. `buy_credits` checks the
  destination project before it reads the listing. The other two handlers check it
  last. All three check self-trade before quantity.
- Missing fields are detected with Python truthiness, so a credit id, listing quantity or
  price of 0, and a destination project id of 0, count as missing.
- `create_marketplace_listing` writes no `LISTING` record, and issuance writes no log row at all.
- The purchase handlers refuse a quantity <= 0, but neither listing handler refuses a
  negative quantity or price, and neither issuing handler refuses a negative amount.
  These are the first two findings below. The corrected operations (`Listings.List`,
  `Issuance.AddCarbonCredit`, `Issuance.SaveProject`) refuse such input.
- `list_credits` and `buy_credits` never commit. Both open a connection and query it,
  which opens a transaction. Later they set `conn.autocommit`, and the psycopg2
  driver refuses that inside a transaction: it raises, and the handler answers 500.
  Their outer `finally` sets `autocommit` again. It does so on every return made after
  the connection opened, inside a transaction or, in buy_credits after a missing
  listing, on a closed connection, so even their refusals become 500s. Only the field
  checks made before the connection opens answer as written. These are the last two
  findings below. The model keeps what the handlers evidently intend as
  `Listings.List` and `Trade.BuyCredits`, and shows the full sale and the partial
  sale through `create_marketplace_listing` and `purchase_credits`, which set
  `autocommit` before their first query.

## Model

| member | source | states |
|---|---|---|
| `Ledger.AvailableBounds` | app.py:1652-1668 | in a valid ledger a lot's available balance (earned - used - listed, NULL read as 0) is between 0 and what it earned |
| `Ledger.ReservationCovers` | app.py:3437-3445 | in a valid ledger each active listing's remaining quantity is covered by its lot's `listed` |
| `Ledger.ReservedAfterInsert` | app.py:1679-1694 | inserting a listing adds its quantity to exactly its own lot's reservation |
| `Listings.ListWith` | app.py:1637-1716 | create_marketplace_listing as written (non-strict), and list_credits as intended, run as one transaction: a listing commits iff all fields are present and non-zero (a credit id of 0 counts as missing), the caller owns the lot's project, (marketplace handler) `listed` is not NULL, and quantity <= available. It then adds q to `listed`, inserts an active listing of q for the caller, and, for list_credits only, marks the lot PENDING and logs one LISTING row. A missing or zero field gives missing-fields; with the fields present, a lot the caller does not own gives credit-not-found; a short balance gives not-enough-credits; in create_marketplace_listing (app.py:3435) a NULL `listed` on an owned lot makes `float()` raise, an internal error |
| `Listings.DeleteListing` | app.py:3625-3651 | only the seller can delete; deletion removes that listing and changes no lot, log row or other listing |
| `Trade.Purchase` | app.py:3465-3577 | a purchase commits iff q > 0, a destination is given and non-zero (else missing-destination) and is the buyer's, the listing is open, the buyer is not the seller and q <= quantity_available. On success the listing drops by q and is `sold` exactly when 0 remains; the seller's lot gets `used += q`, `listed := max(listed - q, 0)`; one lot of q is minted for the buyer (value q*price, PURCHASED); one PURCHASE row with total q*price is logged. A failure names the first check that fails in the handler's order: q <= 0 gives invalid-quantity, then no destination gives missing-destination, then (buy_credits only) a foreign destination gives invalid-destination, then a closed or missing listing gives listing-not-found, then self-trade, then q above quantity_available gives not-enough-credits, then (purchase_credits, complete_purchase) a foreign destination gives invalid-destination |
| `Listings.ListCreditsAsWritten` | app.py:1642-1716 | list_credits as written never commits: with a field missing or zero it answers missing-fields, and with all fields present every answer is internal (autocommit changed at app.py:1674 and app.py:1714 inside the open transaction) |
| `Trade.BuyCreditsAsWritten` | app.py:1725-1851 | buy_credits as written never commits: a null quantity is internal, q <= 0 is invalid-quantity, a missing or zero destination is missing-destination, and once the connection is open every answer is internal (autocommit changed at app.py:1774, and at app.py:1843 on a transaction or on the connection closed at app.py:1758) |
| `Trade.BuyCredits` | app.py:1720-1851 | buy_credits as intended, run as one transaction: it fails internally on a null quantity, and any other request is the purchase with the destination checked first (a foreign destination is refused before the listing is read), recording `DUMMY_PAYMENT` |
| `Trade.PurchaseCredits` | app.py:3465-3577 | purchase_credits fails internally on a null quantity, and any other request is the purchase with the destination checked last, recording the caller's payment reference; so it reports a missing listing even when the destination is also bad |
| `Trade.CompletePurchase` | app.py:3740-3850 | complete_purchase fails internally, with no write, on a null quantity, and on a null or non-object `paymentDetails` when `payment_reference` is empty; otherwise it is the purchase with the destination checked last, recording `payment_reference` if non-empty, else the details object's non-empty `reference`, else `LEGACY_PAYMENT` |
| `Trade.FirstTruthy` | app.py:3753 | the `or` chain picks the first present non-empty reference: the first operand when it is non-empty, otherwise the second when it is non-empty, otherwise the default |
| `Trade.CheckOrderOnlyChangesError` | app.py:1740-1769 | the check orders accept the same requests and commit the same state |
| `Issuance.AddCarbonCreditWith` | app.py:1271-1300 | add_carbon_credit commits iff the project is the caller's (and, corrected, the amount is not negative); the new lot, under the next unused id, has its full amount available, and the projects, listings, log and id counters other than the lot counter are unchanged |
| `Issuance.SaveProjectWith` | app.py:942-1029 | save_project commits iff both dates parse and end >= start. It then inserts the caller's project and an ownerless lot of the computed credits valued at 1000 each |
| `Preservation.ListPreservesValid` | app.py:1670-1694 | a corrected listing keeps the ledger invariant |
| `Preservation.PurchaseReservation` | app.py:3524-3536 | a purchase lowers the listed lot's reservation by exactly q and no other lot's |
| `Preservation.PurchaseFloorIdle` | app.py:1799-1803 | in a valid ledger the seller's `listed` covers every sale, so the `GREATEST(..., 0)` floor never engages |
| `Preservation.PurchasePreservesValid` | app.py:1784-1804 | a purchase keeps the invariant |
| `Preservation.PurchaseKeepsSellerAvailable` | app.py:1799-1804 | when listed >= q, the sale leaves the seller's available balance and earned unchanged |
| `Preservation.DeletePreservesValid` | app.py:3636-3643 | deleting a listing keeps the invariant |
| `Preservation.DeleteStrandsReservation` | app.py:3643 | deleting an active listing leaves its remaining quantity reserved in `listed` with no listing behind it |
| `Preservation.AddCarbonCreditPreservesValid` | app.py:1291-1294 | corrected manual issuance keeps the invariant |
| `Preservation.SaveProjectPreservesValid` | app.py:1026-1029 | corrected issuance on a new project keeps the invariant |
| `Preservation.BrowseUnderValid` | app.py:3362-3375 | in a valid ledger a listing is shown iff it is active, not the viewer's, and its lot's project exists (the join on projects) |
| `Preservation.BrowsedListingIsPurchasable` | app.py:2034-2035 | every listing shown to a viewer can be bought by them up to its remaining quantity |
| `Conservation.PurchaseConservesOutstanding` | app.py:3531-3544 | a purchase leaves the sum over all lots of earned - used unchanged |
| `Conservation.ListConservesOutstanding` | app.py:1688-1694 | a listing leaves that sum unchanged |
| `Conservation.NoOversell` | app.py:3511-3528 | over any run of purchases, what is bought from a listing plus what it still offers equals what it offered, so it is never oversold |
| `Findings.NegativeListingOversells` | app.py:3414 | create_marketplace_listing as written lets a lot of 10 be listed -5 then 15, and purchase_credits then sells 15 of it |
| `Findings.ListCreditsNeverCommits` | app.py:1674 | a well-formed request that list_credits as intended commits is answered internal by list_credits as written |
| `Findings.BuyCreditsNeverCommits` | app.py:1774 | a well-formed purchase that buy_credits as intended commits (buyer lot of 5) is answered internal by buy_credits as written |
| `Findings.CorrectedListingRefusesNegative` | app.py:3414 | the corrected listing refuses negative quantity and price |
| `Findings.NegativeIssueUnbalances` | app.py:1291-1294 | issuance as written creates a lot with used + listed > earned; the corrected one refuses it |
| `Scenarios.FullSale` | app.py:3520-3555 | listing 100 at 10 through create_marketplace_listing and buying 100 through purchase_credits gives a sold listing, used 100, a buyer lot of 100 and a PURCHASE of 1000 |
| `Scenarios.PartialSale` | app.py:3520-3560 | listing 50 at 20 through create_marketplace_listing and buying 20 through purchase_credits leaves 30 active, used 20, listed 30, a buyer lot of 20 worth 400, and logs the caller's payment reference |
| `Scenarios.RacingBuyers` | app.py:3786-3787 | two requests for 60 against 100: the second is refused with not-enough-credits |
| `Scenarios.CheckOrderDecidesError` | app.py:1740-1774 | with a foreign destination and a missing listing, buy_credits as intended reports invalid-destination, purchase_credits reports listing-not-found, and buy_credits as written answers internal |
| `ProjectStatus.CalculateStatus` | app.py:661-689 | Unknown iff a date is missing or unparsable; otherwise Planning iff today < start, In Progress iff start <= today <= end, Completed iff today is past both |
| `ProjectStatus.StatusNeverRegresses` | app.py:681-688 | as today advances, the status never returns to an earlier phase |
| `ProjectStatus.EveryPhaseReached` | app.py:966-972 | for start <= end each of the three phases occurs |
| `Recommendations.Dedup` | app.py:423-432 | the seen-titles loop computes the first-occurrence filter |
| `Recommendations.KeepFirstSpec` | app.py:424-430 | de-duplication keeps every title, no title twice, and only input elements |
| `Recommendations.KeepFirstKeepsFirst` | app.py:427-430 | each kept element is the first of its title in the input |
| `Recommendations.KeepFirstOfDistinct` | app.py:1036-1042 | a list without repeated titles is unchanged by de-duplication |
| `Recommendations.KeepFirstIdempotent` | app.py:1036-1042 | de-duplicating twice equals de-duplicating once |
| `Recommendations.Assemble` | app.py:394-421 | general and project-specific recommendations are always included, and so is each of the four categories (materials, equipment, energy, transport) whose hotspot fired; unless that selection is empty nothing else is included, and when it is empty the list is the first two material, two equipment, one energy and one transport recommendations |
| `Recommendations.RecommendationsWellFormed` | app.py:394-432 | the returned list has distinct titles, keeps every title of the assembled list (so every general and project-specific title), and is a fixed point of de-duplication |
| `Recommendations.GenerateRecommendations` | app.py:423-432 | the result is the assembled list with each title's first occurrence kept, and has distinct titles |

## Left out

- Sessions, login checks and the row-level-security role switching: the acting user is a parameter.
- Concurrency: the handlers read and then write without row locks. The model runs requests one after another, so races between purchases are not modelled.
- Floating point: quantities and prices are exact reals. Python's float conversion and rounding are not modelled.
- The emissions calculation: the credits `save_project` issues are a parameter.
- Timestamps (`issued_at`, `listed_at`, `created_at`) and the constant `COMPLETED` status of log rows.
- Message texts and HTTP codes: each distinct answer is one `Error` kind.
- The request-key aliases. `project_id`/`destination_project_id` and `listingId`/`listing_id` arrive already resolved to one optional value.
- Non-numeric request values: a string that `float()` cannot parse is not modelled. Where `float()` is applied to a null, it raises, and the model gives `Internal`. That covers create_marketplace_listing with a quantity or price that is null or absent, and the three purchase handlers with a quantity that is explicitly null. An absent purchase quantity defaults to 0 and is refused as invalid.
- The schema is not part of this model. New lots are taken to start with `credits_used` and `listed_quantity` at 0 and `source` at ISSUED. A listing inserted without a status is taken to be `active`. Deleting a listing is taken to succeed whenever the seller asks, so any foreign key from log rows to listings is not modelled.
- The simulated payment page, random recommendation picks, reports and file exports, CSV upload, manual credit edits and deletes, project edits and deletes, and the read-only views. These either sit outside the ledger or, for the manual credit edits, overwrite lots without checks.
- The recommendation texts and the float hotspot thresholds: the catalogue and the four threshold outcomes are parameters.
- The join on `users` in the two browse queries: users are not modelled beyond their ids, so the seller's name is not shown and a seller id without a user row is not filtered out.
- The rest of `save_project`: the emissions row, the recommendation rows, and the project's name, type and location.
- `Trade.Purchase`: its promises about the seller's lot are stated only when the next lot id is unused, which a valid ledger guarantees.
- `Preservation.PurchaseKeepsSellerAvailable`: stated only when the next lot id is unused, as above.

## Findings

| source | as written | input that shows it | evidently intended | confidence | as-written member | corrected member |
|---|---|---|---|---|---|---|
| app.py:3414 | `not quantity or not price_per_credit` refuses only 0 (same test in list_credits at app.py:1648), so a negative quantity is listed and lowers `listed` | lot earned 10: list -5 through create_marketplace_listing (available becomes 15), list 15, buy 15 through purchase_credits, and the lot has used 15 > earned 10 | refuse a quantity or price <= 0 | not executed; a database CHECK constraint, which is not visible, could stop it | `Findings.NegativeListingOversells` | `Preservation.ListPreservesValid` |
| app.py:1291-1294 | add_carbon_credit (and save_project at app.py:1026-1029) inserts whatever amount it is given | earned -1 gives a lot with used + listed = 0 > -1 | refuse a negative issued amount | not executed; a database CHECK constraint, which is not visible, could stop it | `Findings.NegativeIssueUnbalances` | `Preservation.AddCarbonCreditPreservesValid` |
| app.py:1674 | list_credits sets `conn.autocommit = False` after its first query, and `True` again in `finally` at app.py:1714, both inside an open transaction | credit 1 owned by the caller with 10 available; list 5 at 1.0 | list the credits in one transaction | not executed; rests on the psycopg2 driver raising when autocommit changes inside a transaction | `Findings.ListCreditsNeverCommits` | `Listings.ListWith` |
| app.py:1774 | buy_credits sets `conn.autocommit = False` after its first queries, and `True` again in `finally` at app.py:1843, inside a transaction or after `conn.close()` at app.py:1758 | listing 1 of 5 at 1.0 by another user; buy 5 into the buyer's project 20 | buy the credits in one transaction | not executed; rests on the psycopg2 driver raising when autocommit changes inside a transaction or on a closed connection | `Findings.BuyCreditsNeverCommits` | `Trade.BuyCredits` |

=== FILE: conservation.dfy ===
/**
 * Quantity conservation across the whole ledger: a purchase moves credits between
 * lots without creating or destroying any, and a run of purchases never sells more
 * from a listing than it offered.
 */
module Conservation {
  import opened Wrappers
  import opened Sums
  import opened Ledger
  import opened Listings
  import opened Trade

  /** What lot i still holds (earned - used), or 0 if there is no lot i. */
  function Holding(lots: map<LotId, Lot>, i: nat): (h: real)
  {
    if i in lots then lots[i].earned - lots[i].used else 0.0
  }

  /** The credits held across every lot with id below n. */
  function Outstanding(lots: map<LotId, Lot>, n: nat): (total: real)
  {
    RangeSum((i: nat) => Holding(lots, i), n)
  }

  /** Moving q out of lot `seller` and into a new lot n, changing no other lot, keeps the total. */
  lemma {:induction false} TransferConservesOutstanding(lots: map<LotId, Lot>, lots': map<LotId, Lot>,
                                                        seller: LotId, n: LotId, q: real)
    requires seller in lots && seller < n && n !in lots
    requires lots'.Keys == lots.Keys + {n}
    requires forall k :: k in lots && k != seller ==> lots'[k] == lots[k]
    requires Holding(lots', seller) == Holding(lots, seller) - q
    requires Holding(lots', n) == q
    ensures Outstanding(lots', n + 1) == Outstanding(lots, n)
  {
    var f := (i: nat) => Holding(lots, i);
    var g := (i: nat) => Holding(lots', i);
    forall i: nat | i < n && i != seller
      ensures f(i) == g(i)
    {
    }
    RangeSumPoint(f, g, seller, n);
  }

  /** A purchase leaves the total of earned - used over all lots unchanged: q leaves the seller's lot and q arrives in the buyer's. */
  lemma {:induction false} PurchaseConservesOutstanding(st: Ledger, buyer: UserId, listingId: Option<ListingId>, quantity: real,
                                                        destination: Option<ProjectId>, order: CheckOrder,
                                                        payment: Option<string>)
    requires Valid(st)
    requires Purchase(st, buyer, listingId, quantity, destination, order, payment).Ok?
    ensures var st' := Purchase(st, buyer, listingId, quantity, destination, order, payment).value;
            Outstanding(st'.lots, st'.nextLot) == Outstanding(st.lots, st.nextLot)
  {
    var st' := Purchase(st, buyer, listingId, quantity, destination, order, payment).value;
    var seller := st.listings[listingId.value].lot;
    TransferConservesOutstanding(st.lots, st'.lots, seller, st.nextLot, quantity);
  }

  /** Listing changes no lot's earned or used, so it leaves the total unchanged. */
  lemma {:induction false} ListConservesOutstanding(st: Ledger, caller: UserId, handler: ListHandler,
                                                    creditId: Option<LotId>, quantity: Option<real>, price: Option<real>)
    requires List(st, caller, handler, creditId, quantity, price).Ok?
    ensures var st' := List(st, caller, handler, creditId, quantity, price).value;
            Outstanding(st'.lots, st'.nextLot) == Outstanding(st.lots, st.nextLot)
  {
    var st' := List(st, caller, handler, creditId, quantity, price).value;
    RangeSumFrame((i: nat) => Holding(st.lots, i), (i: nat) => Holding(st'.lots, i), st.nextLot);
  }

  /** One purchase request as the handlers receive it. */
  datatype PurchaseRequest = PurchaseRequest(
    buyer: UserId, listing: ListingId, quantity: real, destination: Option<ProjectId>,
    order: CheckOrder, payment: Option<string>)

  function Attempt(st: Ledger, req: PurchaseRequest): (r: Result<Ledger, Error>)
  {
    Purchase(st, req.buyer, Some(req.listing), req.quantity, req.destination, req.order, req.payment)
  }

  /** Committing a successful request, or rolling a failed one back to the state it started from. */
  function Apply(st: Ledger, req: PurchaseRequest): (after: Ledger)
  {
    match Attempt(st, req)
    case Ok(st') => st'
    case Err(_) => st
  }

  /** A run of purchase requests served one after another. */
  function Run(st: Ledger, reqs: seq<PurchaseRequest>): (after: Ledger)
    decreases |reqs|
  {
    if reqs == [] then st else Run(Apply(st, reqs[0]), reqs[1..])
  }

  /** The total quantity the successful requests of a run bought from listing `id`. */
  function SoldOn(st: Ledger, reqs: seq<PurchaseRequest>, id: ListingId): (sold: real)
    decreases |reqs|
  {
    if reqs == [] then 0.0
    else
      (if reqs[0].listing == id && Attempt(st, reqs[0]).Ok? then reqs[0].quantity else 0.0)
      + SoldOn(Apply(st, reqs[0]), reqs[1..], id)
  }

  /** What listing `id` still offers: its quantity while active, nothing otherwise. */
  function Remaining(st: Ledger, id: ListingId): (left: real)
  {
    if id in st.listings && st.listings[id].status == Active then st.listings[id].quantityAvailable else 0.0
  }

  /** One request lowers what listing `id` offers by exactly what it bought from it. */
  lemma {:induction false} ApplyRemaining(st: Ledger, req: PurchaseRequest, id: ListingId)
    ensures Remaining(Apply(st, req), id)
            == Remaining(st, id) - (if req.listing == id && Attempt(st, req).Ok? then req.quantity else 0.0)
    ensures req.listing == id && Attempt(st, req).Ok? ==> Remaining(Apply(st, req), id) >= 0.0
  {
  }

  /**
   * No oversell: however requests interleave, what a run buys from a listing plus what the
   * listing still offers afterwards is what it offered before, so the run never buys more
   * than was offered.
   */
  lemma {:induction false} NoOversell(st: Ledger, reqs: seq<PurchaseRequest>, id: ListingId)
    requires Remaining(st, id) >= 0.0
    ensures SoldOn(st, reqs, id) + Remaining(Run(st, reqs), id) == Remaining(st, id)
    ensures Remaining(Run(st, reqs), id) >= 0.0
    ensures SoldOn(st, reqs, id) <= Remaining(st, id)
    decreases |reqs|
  {
    if reqs != [] {
      ApplyRemaining(st, reqs[0], id);
      NoOversell(Apply(st, reqs[0]), reqs[1..], id);
    }
  }
}

=== FILE: findings.dfy ===
/**
 * Places where the handlers as written go wrong, each shown on a concrete ledger beside
 * the corrected operation the rest of the model uses: two that break the conservation
 * invariant, and two handlers that can never commit.
 */
module Findings {
  import opened Wrappers
  import opened Ledger
  import opened Listings
  import opened Trade
  import opened Issuance
  import opened Fixtures

  /**
   * `not quantity` only refuses 0, so create_marketplace_listing accepts a listing of -5
   * credits: it lowers the lot's `listed` to -5 and raises its available balance to 15; a
   * second listing of 15 then passes the balance check, and a buyer (through
   * purchase_credits) takes all 15 from a lot that earned 10.
   */
  lemma NegativeListingOversells()
    ensures var s1 := ListAsWritten(Start(10.0), Seller, MarketplaceHandler, Some(1), Some(-5.0), Some(1.0));
            s1.Ok? && Available(s1.value.lots[1]) == 15.0 && !Valid(s1.value)
            && var s2 := ListAsWritten(s1.value, Seller, MarketplaceHandler, Some(1), Some(15.0), Some(1.0));
            s2.Ok?
            && var s3 := Purchase(s2.value, Buyer, Some(2), 15.0, Some(BuyerProject), DestinationLast, None);
            s3.Ok? && s3.value.lots[1].used == 15.0 > s3.value.lots[1].earned == 10.0
  {
    var s1 := ListAsWritten(Start(10.0), Seller, MarketplaceHandler, Some(1), Some(-5.0), Some(1.0)).value;
    assert s1.listings[1].status == Active && s1.listings[1].quantityAvailable < 0.0;
    var s2 := ListAsWritten(s1, Seller, MarketplaceHandler, Some(1), Some(15.0), Some(1.0)).value;
    assert s2.listings[2] == Listing(1, Seller, 15.0, 1.0, Active);
  }

  /** The corrected listing refuses the negative quantity before touching the ledger. */
  lemma CorrectedListingRefusesNegative()
    ensures List(Start(10.0), Seller, ListCreditsHandler, Some(1), Some(-5.0), Some(1.0)) == Err(NonPositiveInput)
    ensures List(Start(10.0), Seller, MarketplaceHandler, Some(1), Some(5.0), Some(-1.0)) == Err(NonPositiveInput)
  {
  }

  /** add_carbon_credit accepts a negative amount, giving a lot with used + listed > earned. */
  lemma NegativeIssueUnbalances()
    ensures var r := AddCarbonCreditAsWritten(Start(10.0), Seller, SellerProject, -1.0, 0.0);
            r.Ok? && !Balanced(r.value.lots[2]) && !Valid(r.value)
    ensures var r := SaveProjectAsWritten(Start(10.0), Seller, Some(10), Some(20), -1.0);
            r.Ok? && !Balanced(r.value.lots[2]) && !Valid(r.value)
    ensures AddCarbonCredit(Start(10.0), Seller, SellerProject, -1.0, 0.0) == Err(NegativeIssue)
    ensures SaveProject(Start(10.0), Seller, Some(10), Some(20), -1.0) == Err(NegativeIssue)
  {
    var saved := SaveProjectAsWritten(Start(10.0), Seller, Some(10), Some(20), -1.0).value;
    assert saved.lots[2].earned == -1.0 && saved.lots[2].used == 0.0;
  }

  /**
   * list_credits as written answers a well-formed request for 5 of the seller's 10 credits
   * with a 500 and writes nothing; the intended handler commits the listing.
   */
  lemma ListCreditsNeverCommits()
    ensures ListCreditsAsWritten(Start(10.0), Seller, Some(1), Some(5.0), Some(1.0)) == Err(Internal)
    ensures var r := List(Start(10.0), Seller, ListCreditsHandler, Some(1), Some(5.0), Some(1.0));
            r.Ok? && r.value.listings[1] == Listing(1, Seller, 5.0, 1.0, Active)
  {
  }

  /**
   * buy_credits as written answers a well-formed purchase of an open listing with a 500 and
   * writes nothing; the intended handler commits the purchase.
   */
  lemma BuyCreditsNeverCommits()
    ensures var s1 := ListAsWritten(Start(10.0), Seller, MarketplaceHandler, Some(1), Some(5.0), Some(1.0));
            s1.Ok?
            && BuyCreditsAsWritten(s1.value, Buyer, 1, Some(5.0), Some(BuyerProject)) == Err(Internal)
            && var r := BuyCredits(s1.value, Buyer, 1, Some(5.0), Some(BuyerProject));
            r.Ok? && r.value.lots[2].owner == Some(Buyer) && r.value.lots[2].earned == 5.0
  {
  }
}

=== FILE: fixtures.dfy ===
/** The concrete ledger the scenarios and findings start from. */
module Fixtures {
  import opened Wrappers
  import opened Ledger

  const Seller: UserId := 1
  const Buyer: UserId := 2
  const SellerProject: ProjectId := 10
  const BuyerProject: ProjectId := 20

  /** Seller owns project 10, buyer owns project 20; lot 1 on project 10 has earned credits and nothing used or listed. */
  function Start(earned: real): (st: Ledger)
  {
    Ledger(map[SellerProject := Seller, BuyerProject := Buyer],
           map[1 := Lot(Some(Seller), SellerProject, earned, 0.0, Some(0.0), 0.0, Issued, StatusDefault)],
           map[], [], 21, 2, 1)
  }

  lemma StartIsValid(earned: real)
    requires earned >= 0.0
    ensures Valid(Start(earned))
  {
  }
}

=== FILE: issuance.dfy ===
/**
 * Credit Accounting: the two places that issue a lot, save_project (credits computed
 * from a new project's emissions) and add_carbon_credit (credits entered by hand).
 * Neither writes `credits_used` or `listed_quantity`, so both start at their column
 * default, 0; neither writes the transaction log.
 */
module Issuance {
  import opened Wrappers
  import opened Ledger

  /** The lot an issuance inserts. */
  function IssuedLot(owner: Option<UserId>, project: ProjectId, earned: real, value: real): (lot: Lot)
  {
    Lot(owner, project, earned, 0.0, Some(0.0), value, Issued, StatusDefault)
  }

  /**
   * add_carbon_credit: the project must belong to the caller. As written (`strict` false)
   * any amount is accepted; the corrected form (`strict` true) refuses a negative one.
   */
  function AddCarbonCreditWith(st: Ledger, caller: UserId, project: ProjectId, earned: real, value: real,
                               strict: bool): (r: Result<Ledger, Error>)
    ensures r.Ok? <==> project in st.projects && st.projects[project] == caller && (strict ==> earned >= 0.0)
    ensures !(project in st.projects && st.projects[project] == caller) ==> r == Err(InvalidProject)
    ensures r.Ok? ==>
      && r.value.nextLot == st.nextLot + 1
      && st.nextLot in r.value.lots
      && r.value.lots[st.nextLot] == IssuedLot(Some(caller), project, earned, value)
      && Available(r.value.lots[st.nextLot]) == earned
      && (forall k :: k in st.lots && k != st.nextLot ==> k in r.value.lots && r.value.lots[k] == st.lots[k])
      && r.value.listings == st.listings && r.value.log == st.log
      && r.value.projects == st.projects && r.value.nextListing == st.nextListing
      && r.value.nextProject == st.nextProject
    ensures r.Ok? && st.nextLot !in st.lots ==> r.value.lots.Keys == st.lots.Keys + {st.nextLot}
  {
    if project !in st.projects || st.projects[project] != caller then Err(InvalidProject)
    else if strict && earned < 0.0 then Err(NegativeIssue)
    else Ok(Mint(st, IssuedLot(Some(caller), project, earned, value)))
  }

  function AddCarbonCreditAsWritten(st: Ledger, caller: UserId, project: ProjectId, earned: real, value: real): (r: Result<Ledger, Error>)
  {
    AddCarbonCreditWith(st, caller, project, earned, value, false)
  }

  function AddCarbonCredit(st: Ledger, caller: UserId, project: ProjectId, earned: real, value: real): (r: Result<Ledger, Error>)
  {
    AddCarbonCreditWith(st, caller, project, earned, value, true)
  }

  /** The price save_project puts on each issued credit. */
  const CreditPrice: real := 1000.0

  /**
   * The ledger part of save_project: the dates must parse (None stands for a missing or
   * unparsable date) and the end may not precede the start; then the project row is
   * inserted for the caller and a lot of `credits` is issued on it, with no owner set and
   * valued at 1000 per credit.
   */
  function SaveProjectWith(st: Ledger, caller: UserId, start: Option<int>, end: Option<int>, credits: real,
                           strict: bool): (r: Result<Ledger, Error>)
    ensures r.Ok? <==> start.Some? && end.Some? && start.value <= end.value && (strict ==> credits >= 0.0)
    ensures start.None? || end.None? ==> r == Err(InvalidDate)
    ensures start.Some? && end.Some? && end.value < start.value ==> r == Err(EndBeforeStart)
    ensures r.Ok? ==>
      && r.value.nextProject == st.nextProject + 1
      && r.value.projects == st.projects[st.nextProject := caller]
      && r.value.nextLot == st.nextLot + 1
      && st.nextLot in r.value.lots
      && r.value.lots[st.nextLot] == IssuedLot(None, st.nextProject, credits, credits * CreditPrice)
      && (forall k :: k in st.lots && k != st.nextLot ==> k in r.value.lots && r.value.lots[k] == st.lots[k])
      && r.value.listings == st.listings && r.value.log == st.log
      && r.value.nextListing == st.nextListing
    ensures r.Ok? && st.nextLot !in st.lots ==> r.value.lots.Keys == st.lots.Keys + {st.nextLot}
  {
    if start.None? || end.None? then Err(InvalidDate)
    else if end.value < start.value then Err(EndBeforeStart)
    else if strict && credits < 0.0 then Err(NegativeIssue)
    else
      var project := st.nextProject;
      var st1 := st.(projects := st.projects[project := caller], nextProject := project + 1);
      Ok(Mint(st1, IssuedLot(None, project, credits, credits * CreditPrice)))
  }

  function SaveProjectAsWritten(st: Ledger, caller: UserId, start: Option<int>, end: Option<int>, credits: real): (r: Result<Ledger, Error>)
  {
    SaveProjectWith(st, caller, start, end, credits, false)
  }

  function SaveProject(st: Ledger, caller: UserId, start: Option<int>, end: Option<int>, credits: real): (r: Result<Ledger, Error>)
  {
    SaveProjectWith(st, caller, start, end, credits, true)
  }
}

=== FILE: ledger.dfy ===
/**
 * The ledger state of the carbon-credit marketplace: projects (read-only context
 * apart from save_project), credit lots (`carbon_credits`), marketplace listings
 * (`marketplace_listings`) and the append-only transaction log
 * (`carbon_credit_transactions`). Row ids come from SERIAL counters.
 */
module Ledger {
  import opened Wrappers
  import opened Sums

  type UserId = nat
  type ProjectId = nat
  type LotId = nat
  type ListingId = nat

  /** The lot's `source` column: the column default for issued lots, `PURCHASED` for minted ones. */
  datatype Source = Issued | Purchased

  /** The lot's `status` column: the column default, `PENDING` once list_credits lists it, `AVAILABLE` on purchased lots. */
  datatype LotStatus = StatusDefault | StatusPending | StatusAvailable

  /**
   * One credit lot. `used` is read through COALESCE(credits_used, 0) everywhere, so a
   * NULL there is the same as 0; `listed` is not COALESCEd by every handler, so its NULL
   * is kept as None.
   */
  datatype Lot = Lot(
    owner: Option<UserId>,
    project: ProjectId,
    earned: real,
    used: real,
    listed: Option<real>,
    value: real,
    source: Source,
    status: LotStatus)

  datatype ListingStatus = Active | Sold

  datatype Listing = Listing(
    lot: LotId,
    seller: UserId,
    quantityAvailable: real,
    price: real,
    status: ListingStatus)

  datatype TxKind = ListingTx | PurchaseTx

  /** One audit row; every row the core writes has status `COMPLETED`. */
  datatype Transaction = Transaction(
    kind: TxKind,
    fromUser: UserId,
    toUser: Option<UserId>,
    quantity: real,
    fromProject: ProjectId,
    toProject: Option<ProjectId>,
    listing: ListingId,
    price: real,
    totalPrice: Option<real>,
    paymentReference: Option<string>)

  datatype Ledger = Ledger(
    projects: map<ProjectId, UserId>,
    lots: map<LotId, Lot>,
    listings: map<ListingId, Listing>,
    log: seq<Transaction>,
    nextProject: ProjectId,
    nextLot: LotId,
    nextListing: ListingId)

  /** The error kinds the handlers answer with; every one of them leaves the ledger as it was. */
  datatype Error =
    | MissingFields        // 400 "Missing required fields"
    | NonPositiveInput     // rejection of a negative quantity or price (corrected listing)
    | NegativeIssue        // rejection of a negative issued amount (corrected issuance)
    | CreditNotFound       // 404 "Credit not found"
    | NotEnoughCredits     // 400 "Not enough credits available"
    | InvalidQuantity      // 400 "Invalid quantity"
    | MissingDestination   // 400 "Please select a ... project"
    | InvalidDestination   // 400 "Invalid destination project" / "Invalid project"
    | ListingNotFound      // 404 "Listing not found"
    | SelfPurchase         // 400 "Cannot buy your own credits"
    | InvalidProject       // 400 "Invalid project" in add_carbon_credit
    | InvalidDate          // 400 "Invalid date format"
    | EndBeforeStart       // 400 "End date cannot be before start date"
    | Internal             // 500: an exception inside the handler, rolled back

  /** COALESCE(listed_quantity, 0). */
  function Listed(lot: Lot): (q: real)
  {
    match lot.listed
    case None => 0.0
    case Some(q) => q
  }

  /** The quantity a lot can still list: earned - used - listed, with NULL read as 0. */
  function Available(lot: Lot): (a: real)
  {
    lot.earned - lot.used - Listed(lot)
  }

  /** The quantity listing `i` reserves on lot `lot`: its remaining quantity while it is active. */
  function Contribution(listings: map<ListingId, Listing>, i: nat, lot: LotId): (c: real)
  {
    if i in listings && listings[i].lot == lot && listings[i].status == Active
    then listings[i].quantityAvailable
    else 0.0
  }

  /** The total reserved on `lot` by the active listings with ids below n. */
  function Reserved(listings: map<ListingId, Listing>, lot: LotId, n: nat): (total: real)
  {
    RangeSum((i: nat) => Contribution(listings, i, lot), n)
  }

  /** The conservation invariant of one lot: 0 <= used, 0 <= listed, used + listed <= earned. */
  predicate Balanced(lot: Lot)
  {
    0.0 <= lot.used && 0.0 <= Listed(lot) && lot.used + Listed(lot) <= lot.earned
  }

  /**
   * The ledger invariant: ids lie below their SERIAL counters, every listing points at a
   * lot, active listings hold a positive quantity, every lot is balanced, and the active
   * listings on a lot together reserve no more than its `listed`.
   */
  predicate Valid(st: Ledger)
  {
    && (forall p :: p in st.projects ==> p < st.nextProject)
    && (forall k :: k in st.lots ==> k < st.nextLot)
    && (forall i :: i in st.listings ==> i < st.nextListing && st.listings[i].lot in st.lots)
    && (forall i :: i in st.listings && st.listings[i].status == Active ==> st.listings[i].quantityAvailable > 0.0)
    && (forall k :: k in st.lots ==> Balanced(st.lots[k]) && Reserved(st.listings, k, st.nextListing) <= Listed(st.lots[k]))
  }

  /** The INSERT of a new lot row under the next SERIAL id. */
  function Mint(st: Ledger, lot: Lot): (r: Ledger)
    ensures r.nextLot == st.nextLot + 1
    ensures st.nextLot !in st.lots ==> r.lots.Keys == st.lots.Keys + {st.nextLot}
    ensures st.nextLot in r.lots && r.lots[st.nextLot] == lot
    ensures forall k :: k in st.lots && k != st.nextLot ==> k in r.lots && r.lots[k] == st.lots[k]
  {
    st.(lots := st.lots[st.nextLot := lot], nextLot := st.nextLot + 1)
  }

  /** In a valid ledger no lot has a negative available balance, and none exceeds what it earned. */
  lemma AvailableBounds(st: Ledger, k: LotId)
    requires Valid(st) && k in st.lots
    ensures 0.0 <= Available(st.lots[k]) <= st.lots[k].earned
  {
  }

  /** In a valid ledger the reservation on a lot covers each of its active listings. */
  lemma ReservationCovers(st: Ledger, i: ListingId)
    requires Valid(st)
    requires i in st.listings && st.listings[i].status == Active
    ensures st.listings[i].quantityAvailable <= Reserved(st.listings, st.listings[i].lot, st.nextListing)
    ensures st.listings[i].quantityAvailable <= Listed(st.lots[st.listings[i].lot])
  {
    var lot := st.listings[i].lot;
    var f := (j: nat) => Contribution(st.listings, j, lot);
    forall j: nat | j < st.nextListing
      ensures f(j) >= 0.0
    {
    }
    RangeSumCovers(f, i, st.nextListing);
  }

  /** In a valid ledger nothing is reserved on a lot id that names no lot, such as the next SERIAL id. */
  lemma ReservationOfUnknownLot(st: Ledger, k: LotId)
    requires Valid(st) && k !in st.lots
    ensures Reserved(st.listings, k, st.nextListing) == 0.0
  {
    var f := (j: nat) => Contribution(st.listings, j, k);
    forall j: nat | j < st.nextListing
      ensures f(j) == 0.0
    {
    }
    RangeSumZero(f, st.nextListing);
  }

  /** Adding listing n (with every existing id below n) adds that listing's reservation to its lot. */
  lemma ReservedAfterInsert(listings: map<ListingId, Listing>, n: ListingId, l: Listing, k: LotId)
    requires forall i :: i in listings ==> i < n
    ensures Reserved(listings[n := l], k, n + 1)
            == Reserved(listings, k, n) + (if l.lot == k && l.status == Active then l.quantityAvailable else 0.0)
  {
    var f := (i: nat) => Contribution(listings, i, k);
    var g := (i: nat) => Contribution(listings[n := l], i, k);
    RangeSumFrame(f, g, n);
  }

  /** Rewriting listing j changes its lot's reservation by the difference of its contributions. */
  lemma ReservedAfterUpdate(listings: map<ListingId, Listing>, j: ListingId, l: Listing, k: LotId, n: nat)
    requires j < n
    ensures Reserved(listings[j := l], k, n)
            == Reserved(listings, k, n) - Contribution(listings, j, k) + Contribution(listings[j := l], j, k)
  {
    var f := (i: nat) => Contribution(listings, i, k);
    var g := (i: nat) => Contribution(listings[j := l], i, k);
    RangeSumPoint(f, g, j, n);
  }

  /** Removing listing j takes its contribution out of its lot's reservation. */
  lemma ReservedAfterRemove(listings: map<ListingId, Listing>, j: ListingId, k: LotId, n: nat)
    requires j < n
    ensures Reserved(listings - {j}, k, n) == Reserved(listings, k, n) - Contribution(listings, j, k)
  {
    var f := (i: nat) => Contribution(listings, i, k);
    var g := (i: nat) => Contribution(listings - {j}, i, k);
    RangeSumPoint(f, g, j, n);
  }
}

=== FILE: listings.dfy ===
/**
 * Listing Manager: the two listing handlers (list_credits and
 * create_marketplace_listing), delete_listing, and the browse filter of the
 * marketplace pages.
 */
module Listings {
  import opened Wrappers
  import opened Ledger

  /** Which handler publishes the listing. */
  datatype ListHandler =
    | ListCreditsHandler   // POST /marketplace/list: logs LISTING, marks the lot PENDING
    | MarketplaceHandler   // POST /api/marketplace/list: neither

  /** The caller owns the lot when they own the project the lot belongs to. */
  predicate OwnsLot(st: Ledger, caller: UserId, id: LotId)
  {
    id in st.lots && st.lots[id].project in st.projects && st.projects[st.lots[id].project] == caller
  }

  /** The inputs every handler accepts: all three fields present and truthy (the `not x` test refuses None and 0). */
  predicate FieldsPresent(creditId: Option<LotId>, quantity: Option<real>, price: Option<real>)
  {
    creditId.Some? && quantity.Some? && price.Some?
    && creditId.value != 0 && quantity.value != 0.0 && price.value != 0.0
  }

  /**
   * One listing request, run as one transaction. With `strict` false the quantity and
   * price checks are those of the code, which let a negative quantity or price through;
   * with `strict` true a non-positive quantity or price is rejected, as the ledger
   * invariant needs. For create_marketplace_listing with `strict` false this is the
   * handler as written; for list_credits it is the handler as intended, since as written
   * list_credits never reaches its commit (see `ListCreditsAsWritten`).
   */
  function ListWith(st: Ledger, caller: UserId, handler: ListHandler,
                    creditId: Option<LotId>, quantity: Option<real>, price: Option<real>,
                    strict: bool): (r: Result<Ledger, Error>)
    ensures r.Ok? <==>
      && FieldsPresent(creditId, quantity, price)
      && (strict ==> quantity.value > 0.0 && price.value > 0.0)
      && OwnsLot(st, caller, creditId.value)
      && (handler == MarketplaceHandler ==> st.lots[creditId.value].listed.Some?)
      && quantity.value <= Available(st.lots[creditId.value])
    ensures handler == MarketplaceHandler && (quantity.None? || price.None?) ==> r == Err(Internal)
    ensures handler == ListCreditsHandler && !FieldsPresent(creditId, quantity, price) ==> r == Err(MissingFields)
    ensures handler == MarketplaceHandler && quantity.Some? && price.Some? && !FieldsPresent(creditId, quantity, price) ==>
              r == Err(MissingFields)
    ensures FieldsPresent(creditId, quantity, price) && strict && (quantity.value < 0.0 || price.value < 0.0) ==>
              r == Err(NonPositiveInput)
    ensures FieldsPresent(creditId, quantity, price) && (strict ==> quantity.value > 0.0 && price.value > 0.0) &&
              !OwnsLot(st, caller, creditId.value) ==>
              r == Err(CreditNotFound)
    ensures FieldsPresent(creditId, quantity, price) && (!strict || (quantity.value > 0.0 && price.value > 0.0)) &&
              OwnsLot(st, caller, creditId.value) &&
              (handler == MarketplaceHandler ==> st.lots[creditId.value].listed.Some?) &&
              quantity.value > Available(st.lots[creditId.value]) ==>
              r == Err(NotEnoughCredits)
    // marketplace handler: float() of a NULL available balance raises
    ensures handler == MarketplaceHandler && FieldsPresent(creditId, quantity, price) &&
              (!strict || (quantity.value > 0.0 && price.value > 0.0)) &&
              OwnsLot(st, caller, creditId.value) && st.lots[creditId.value].listed.None? ==>
              r == Err(Internal)
    ensures r.Ok? ==>
      var id, q, p := creditId.value, quantity.value, price.value;
      var lot := st.lots[id];
      && id in r.value.lots
      && var lot' := r.value.lots[id];
      && r.value.projects == st.projects
      && r.value.nextProject == st.nextProject
      && r.value.nextLot == st.nextLot
      && r.value.lots == st.lots[id := lot']
      && lot'.earned == lot.earned && lot'.used == lot.used
      && lot'.owner == lot.owner && lot'.project == lot.project
      && lot'.value == lot.value && lot'.source == lot.source
      && Listed(lot') == Listed(lot) + q
      && lot'.status == (if handler == ListCreditsHandler then StatusPending else lot.status)
      && r.value.listings == st.listings[st.nextListing := Listing(id, caller, q, p, Active)]
      && r.value.nextListing == st.nextListing + 1
      && r.value.log == st.log + (
           if handler == ListCreditsHandler
           then [Transaction(ListingTx, caller, None, q, lot.project, None, st.nextListing, p, None, None)]
           else [])
  {
    if handler == MarketplaceHandler && (quantity.None? || price.None?) then
      // float(None) raises before any check
      Err(Internal)
    else if !FieldsPresent(creditId, quantity, price) then
      Err(MissingFields)
    else if strict && (quantity.value <= 0.0 || price.value <= 0.0) then
      Err(NonPositiveInput)
    else if !OwnsLot(st, caller, creditId.value) then
      Err(CreditNotFound)
    else
      var id, q, p := creditId.value, quantity.value, price.value;
      var lot := st.lots[id];
      if handler == MarketplaceHandler && lot.listed.None? then
        // earned - used - NULL is NULL, and float(None) raises
        Err(Internal)
      else if q > Available(lot) then
        Err(NotEnoughCredits)
      else
        var lot' :=
          match handler
          case ListCreditsHandler => lot.(listed := Some(Listed(lot) + q), status := StatusPending)
          case MarketplaceHandler => lot.(listed := Some(lot.listed.value + q));
        var log' :=
          if handler == ListCreditsHandler
          then st.log + [Transaction(ListingTx, caller, None, q, lot.project, None, st.nextListing, p, None, None)]
          else st.log;
        Ok(st.(lots := st.lots[id := lot'],
               listings := st.listings[st.nextListing := Listing(id, caller, q, p, Active)],
               log := log',
               nextListing := st.nextListing + 1))
  }

  /**
   * list_credits as written. Its connection starts a transaction with the first query
   * (the role switch when it is opened, then the ownership SELECT), and the handler then
   * sets `autocommit`, before its INSERT and again in its `finally` block; the driver
   * refuses to change `autocommit` inside a transaction and raises. So once the fields
   * pass, every path ends in a 500 and nothing is committed.
   */
  function ListCreditsAsWritten(st: Ledger, caller: UserId,
                                creditId: Option<LotId>, quantity: Option<real>, price: Option<real>): (r: Result<Ledger, Error>)
    ensures r.Err?
    ensures !FieldsPresent(creditId, quantity, price) ==> r == Err(MissingFields)
    ensures FieldsPresent(creditId, quantity, price) ==> r == Err(Internal)
  {
    if !FieldsPresent(creditId, quantity, price) then Err(MissingFields) else Err(Internal)
  }

  /** The listing handlers as written. */
  function ListAsWritten(st: Ledger, caller: UserId, handler: ListHandler,
                         creditId: Option<LotId>, quantity: Option<real>, price: Option<real>): (r: Result<Ledger, Error>)
    ensures handler == ListCreditsHandler ==> r.Err?
  {
    match handler
    case ListCreditsHandler => ListCreditsAsWritten(st, caller, creditId, quantity, price)
    case MarketplaceHandler => ListWith(st, caller, handler, creditId, quantity, price, false)
  }

  /** The listing handlers as intended: run as one transaction, non-positive quantity and price rejected. */
  function List(st: Ledger, caller: UserId, handler: ListHandler,
                creditId: Option<LotId>, quantity: Option<real>, price: Option<real>): (r: Result<Ledger, Error>)
  {
    ListWith(st, caller, handler, creditId, quantity, price, true)
  }

  /**
   * delete_listing: the seller may delete their listing in any status; anyone else, or a
   * missing id, gets "Listing not found". Only the listing row goes; the lot's `listed`
   * is not given back.
   */
  function DeleteListing(st: Ledger, caller: UserId, id: ListingId): (r: Result<Ledger, Error>)
    ensures r.Ok? <==> id in st.listings && st.listings[id].seller == caller
    ensures r.Err? ==> r.error == ListingNotFound
    ensures r.Ok? ==>
      && r.value.listings.Keys == st.listings.Keys - {id}
      && (forall i :: i in r.value.listings ==> r.value.listings[i] == st.listings[i])
      && r.value.lots == st.lots
      && r.value.log == st.log
      && r.value.projects == st.projects
      && r.value.nextLot == st.nextLot && r.value.nextListing == st.nextListing
      && r.value.nextProject == st.nextProject
  {
    if id !in st.listings || st.listings[id].seller != caller then Err(ListingNotFound)
    else Ok(st.(listings := st.listings - {id}))
  }

  /** The browse filter: active, something left to buy, and not the viewer's own. */
  predicate Shown(l: Listing, viewer: UserId)
  {
    l.status == Active && l.quantityAvailable > 0.0 && l.seller != viewer
  }

  /** The inner joins of the browse query find the listing's lot and the lot's project. */
  predicate Joined(st: Ledger, l: Listing)
  {
    l.lot in st.lots && st.lots[l.lot].project in st.projects
  }

  /** The ids of the listings the marketplace page shows to `viewer`. */
  function Browse(st: Ledger, viewer: UserId): (shown: set<ListingId>)
  {
    set i | i in st.listings && Joined(st, st.listings[i]) && Shown(st.listings[i], viewer)
  }
}

=== FILE: preservation.dfy ===
/**
 * The ledger invariant (`Ledger.Valid`) is kept by every operation of the core:
 * issuance, listing, purchase and listing deletion.
 */
module Preservation {
  import opened Wrappers
  import opened Ledger
  import opened Listings
  import opened Trade
  import opened Issuance

  /** Listing (with non-positive inputs refused) keeps the invariant, through either handler. */
  lemma {:induction false} ListPreservesValid(st: Ledger, caller: UserId, handler: ListHandler,
                                              creditId: Option<LotId>, quantity: Option<real>, price: Option<real>)
    requires Valid(st)
    requires List(st, caller, handler, creditId, quantity, price).Ok?
    ensures Valid(List(st, caller, handler, creditId, quantity, price).value)
  {
    var st' := List(st, caller, handler, creditId, quantity, price).value;
    var id, q, p := creditId.value, quantity.value, price.value;
    var n := st.nextListing;
    var l := Listing(id, caller, q, p, Active);
    assert st'.listings == st.listings[n := l];
    forall k | k in st'.lots
      ensures Balanced(st'.lots[k]) && Reserved(st'.listings, k, st'.nextListing) <= Listed(st'.lots[k])
    {
      ReservedAfterInsert(st.listings, n, l, k);
    }
  }

  /** A successful purchase moves exactly q out of the listed lot's reservation and nothing else. */
  lemma {:induction false} PurchaseReservation(st: Ledger, buyer: UserId, listingId: Option<ListingId>, quantity: real,
                                               destination: Option<ProjectId>, order: CheckOrder,
                                               payment: Option<string>, k: LotId)
    requires Valid(st)
    requires Purchase(st, buyer, listingId, quantity, destination, order, payment).Ok?
    ensures var st' := Purchase(st, buyer, listingId, quantity, destination, order, payment).value;
            Reserved(st'.listings, k, st'.nextListing)
            == Reserved(st.listings, k, st.nextListing) - (if k == st.listings[listingId.value].lot then quantity else 0.0)
  {
    var st' := Purchase(st, buyer, listingId, quantity, destination, order, payment).value;
    var id := listingId.value;
    assert st'.listings == st.listings[id := st'.listings[id]];
    ReservedAfterUpdate(st.listings, id, st'.listings[id], k, st.nextListing);
  }

  /** In a valid ledger the seller's `listed` always covers the sale, so the `GREATEST(listed - q, 0)` floor never engages. */
  lemma PurchaseFloorIdle(st: Ledger, buyer: UserId, listingId: Option<ListingId>, quantity: real,
                          destination: Option<ProjectId>, order: CheckOrder, payment: Option<string>)
    requires Valid(st)
    requires Purchase(st, buyer, listingId, quantity, destination, order, payment).Ok?
    ensures quantity <= Listed(st.lots[st.listings[listingId.value].lot])
  {
    ReservationCovers(st, listingId.value);
  }

  /** Purchase keeps the invariant. */
  lemma {:induction false} PurchasePreservesValid(st: Ledger, buyer: UserId, listingId: Option<ListingId>, quantity: real,
                                                  destination: Option<ProjectId>, order: CheckOrder,
                                                  payment: Option<string>)
    requires Valid(st)
    requires Purchase(st, buyer, listingId, quantity, destination, order, payment).Ok?
    ensures Valid(Purchase(st, buyer, listingId, quantity, destination, order, payment).value)
  {
    var st' := Purchase(st, buyer, listingId, quantity, destination, order, payment).value;
    PurchaseFloorIdle(st, buyer, listingId, quantity, destination, order, payment);
    forall k | k in st'.lots
      ensures Balanced(st'.lots[k]) && Reserved(st'.listings, k, st'.nextListing) <= Listed(st'.lots[k])
    {
      PurchaseReservation(st, buyer, listingId, quantity, destination, order, payment, k);
      if k == st.nextLot {
        ReservationOfUnknownLot(st, k);
      }
    }
  }

  /** When the seller's `listed` covers the sale, the seller's available balance is unchanged by it. */
  lemma PurchaseKeepsSellerAvailable(st: Ledger, buyer: UserId, listingId: Option<ListingId>, quantity: real,
                                     destination: Option<ProjectId>, order: CheckOrder, payment: Option<string>)
    requires st.nextLot !in st.lots
    requires Purchase(st, buyer, listingId, quantity, destination, order, payment).Ok?
    requires Listed(st.lots[st.listings[listingId.value].lot]) >= quantity
    ensures var st' := Purchase(st, buyer, listingId, quantity, destination, order, payment).value;
            var k := st.listings[listingId.value].lot;
            Available(st'.lots[k]) == Available(st.lots[k]) && st'.lots[k].earned == st.lots[k].earned
  {
  }

  /** Deleting a listing keeps the invariant (its reservation stays counted in `listed`). */
  lemma {:induction false} DeletePreservesValid(st: Ledger, caller: UserId, id: ListingId)
    requires Valid(st)
    requires DeleteListing(st, caller, id).Ok?
    ensures Valid(DeleteListing(st, caller, id).value)
  {
    var st' := DeleteListing(st, caller, id).value;
    assert st'.listings == st.listings - {id};
    forall k | k in st'.lots
      ensures Reserved(st'.listings, k, st'.nextListing) <= Listed(st'.lots[k])
    {
      ReservedAfterRemove(st.listings, id, k, st.nextListing);
    }
  }

  /**
   * Deleting an active listing does not give its quantity back: the lot's available balance
   * is unchanged, and its `listed` now exceeds what its active listings reserve by the
   * deleted listing's remaining quantity.
   */
  lemma {:induction false} DeleteStrandsReservation(st: Ledger, caller: UserId, id: ListingId)
    requires Valid(st)
    requires DeleteListing(st, caller, id).Ok?
    requires st.listings[id].status == Active
    ensures var st' := DeleteListing(st, caller, id).value;
            var k := st.listings[id].lot;
            && Available(st'.lots[k]) == Available(st.lots[k])
            && Listed(st'.lots[k]) - Reserved(st'.listings, k, st'.nextListing)
               == Listed(st.lots[k]) - Reserved(st.listings, k, st.nextListing) + st.listings[id].quantityAvailable
            && Listed(st'.lots[k]) - Reserved(st'.listings, k, st'.nextListing) >= st.listings[id].quantityAvailable > 0.0
  {
    var st' := DeleteListing(st, caller, id).value;
    assert st'.listings == st.listings - {id};
    ReservedAfterRemove(st.listings, id, st.listings[id].lot, st.nextListing);
  }

  /** A new lot of non-negative size on a fresh id keeps the invariant. */
  lemma {:induction false} IssuePreservesValid(st: Ledger, st': Ledger, lot: Lot)
    requires Valid(st)
    requires lot.used == 0.0 && Listed(lot) == 0.0 && lot.earned >= 0.0
    requires st'.lots == st.lots[st.nextLot := lot] && st'.nextLot == st.nextLot + 1
    requires st'.listings == st.listings && st'.nextListing == st.nextListing
    requires st'.nextProject >= st.nextProject
    requires st'.projects.Keys <= st.projects.Keys + {st.nextProject}
    requires st'.nextProject == st.nextProject ==> st'.projects.Keys <= st.projects.Keys
    ensures Valid(st')
  {
    ReservationOfUnknownLot(st, st.nextLot);
  }

  /** add_carbon_credit, with negative amounts refused, keeps the invariant. */
  lemma AddCarbonCreditPreservesValid(st: Ledger, caller: UserId, project: ProjectId, earned: real, value: real)
    requires Valid(st)
    requires AddCarbonCredit(st, caller, project, earned, value).Ok?
    ensures Valid(AddCarbonCredit(st, caller, project, earned, value).value)
  {
    var st' := AddCarbonCredit(st, caller, project, earned, value).value;
    assert st'.lots == st.lots[st.nextLot := IssuedLot(Some(caller), project, earned, value)];
    IssuePreservesValid(st, st', IssuedLot(Some(caller), project, earned, value));
  }

  /** save_project, with negative amounts refused, keeps the invariant. */
  lemma SaveProjectPreservesValid(st: Ledger, caller: UserId, start: Option<int>, end: Option<int>, credits: real)
    requires Valid(st)
    requires SaveProject(st, caller, start, end, credits).Ok?
    ensures Valid(SaveProject(st, caller, start, end, credits).value)
  {
    var st' := SaveProject(st, caller, start, end, credits).value;
    var lot := IssuedLot(None, st.nextProject, credits, credits * CreditPrice);
    assert st'.lots == st.lots[st.nextLot := lot];
    IssuePreservesValid(st, st', lot);
  }

  /** In a valid ledger the browse filter's `quantity_available > 0` test is implied by `status = active`. */
  lemma BrowseUnderValid(st: Ledger, viewer: UserId, i: ListingId)
    requires Valid(st)
    ensures i in Browse(st, viewer) <==>
            i in st.listings && st.listings[i].status == Active && st.listings[i].seller != viewer
            && st.lots[st.listings[i].lot].project in st.projects
  {
  }

  /** Every listing a viewer is shown can be bought by them, in any quantity up to what it offers. */
  lemma BrowsedListingIsPurchasable(st: Ledger, viewer: UserId, i: ListingId, quantity: real,
                                    destination: Option<ProjectId>, order: CheckOrder, payment: Option<string>)
    requires Valid(st)
    requires i in Browse(st, viewer)
    requires OwnsDestination(st, viewer, destination)
    requires 0.0 < quantity <= st.listings[i].quantityAvailable
    ensures Purchase(st, viewer, Some(i), quantity, destination, order, payment).Ok?
  {
  }
}

=== FILE: project_status.dfy ===
/**
 * calculate_project_status: a project's phase from its start and end dates and
 * today's date. Dates are ordinal day numbers; today is a parameter in place of the
 * clock, and the `%Y-%m-%d` parser is a parameter returning None on a ValueError.
 */
module ProjectStatus {
  import opened Wrappers

  /** A date argument as the helper receives it: NULL, a string to parse, or a date. */
  datatype DateArg = NoDate | Text(s: string) | Day(d: int)

  datatype Status = Planning | InProgress | Completed | Unknown

  /** The date an argument stands for, or None when it is missing or does not parse. */
  function Resolve(arg: DateArg, parse: string -> Option<int>): (day: Option<int>)
  {
    match arg
    case NoDate => None
    case Text(s) => parse(s)
    case Day(d) => Some(d)
  }

  function CalculateStatus(today: int, start: DateArg, end: DateArg, parse: string -> Option<int>): (r: Status)
    ensures r == Unknown <==> Resolve(start, parse).None? || Resolve(end, parse).None?
    ensures Resolve(start, parse).Some? && Resolve(end, parse).Some? ==>
      var s, e := Resolve(start, parse).value, Resolve(end, parse).value;
      && (r == Planning <==> today < s)
      && (r == InProgress <==> s <= today <= e)
      && (r == Completed <==> s <= today && e < today)
  {
    // a string that fails to parse answers Unknown straight away
    if start.Text? && parse(start.s).None? then Unknown
    else if end.Text? && parse(end.s).None? then Unknown
    else
      var s, e := Resolve(start, parse), Resolve(end, parse);
      if s.None? || e.None? then Unknown
      else if today < s.value then Planning
      else if s.value <= today <= e.value then InProgress
      else if today > e.value then Completed
      else Unknown
  }

  /** The phases in the order a project passes through them. */
  function Rank(st: Status): (rank: nat)
  {
    match st
    case Planning => 0
    case InProgress => 1
    case Completed => 2
    case Unknown => 0
  }

  /** As the days pass, a project's status never moves back to an earlier phase. */
  lemma StatusNeverRegresses(t1: int, t2: int, start: DateArg, end: DateArg, parse: string -> Option<int>)
    requires t1 <= t2
    requires Resolve(start, parse).Some? && Resolve(end, parse).Some?
    ensures Rank(CalculateStatus(t1, start, end, parse)) <= Rank(CalculateStatus(t2, start, end, parse))
  {
  }

  /** For a project that ends no earlier than it starts (as save_project demands), every phase is reached on some day. */
  lemma EveryPhaseReached(s: int, e: int, parse: string -> Option<int>)
    requires s <= e
    ensures CalculateStatus(s - 1, Day(s), Day(e), parse) == Planning
    ensures CalculateStatus(s, Day(s), Day(e), parse) == InProgress
    ensures CalculateStatus(e + 1, Day(s), Day(e), parse) == Completed
  {
  }
}

=== FILE: recommendations.dfy ===
/**
 * The recommendation list of generate_recommendations: the categories chosen by the
 * emission hotspots, the general recommendations always, the project-specific ones,
 * a fallback when all of that is empty, and the removal of duplicate titles
 * (keeping the first), which save_project applies a second time.
 */
module Recommendations {

  datatype Recommendation = Recommendation(title: string, description: string, impact: string, cost: int, category: string)

  /** Which categories' shares of the emissions passed their thresholds (30%, 20%, 15%, 25%). */
  datatype Hotspots = Hotspots(materials: bool, equipment: bool, electricity: bool, transport: bool)

  /** The static recommendation lists, one per category. */
  datatype Catalogue = Catalogue(
    material: seq<Recommendation>,
    equipment: seq<Recommendation>,
    energy: seq<Recommendation>,
    transport: seq<Recommendation>,
    general: seq<Recommendation>)

  function Titles(s: seq<Recommendation>): (titles: set<string>)
  {
    set r | r in s :: r.title
  }

  predicate DistinctTitles(s: seq<Recommendation>)
  {
    forall i, j :: 0 <= i < j < |s| ==> s[i].title != s[j].title
  }

  /** Element i is the first in s with its title. */
  predicate FirstOfTitle(s: seq<Recommendation>, i: int)
    requires 0 <= i < |s|
  {
    forall j :: 0 <= j < i ==> s[j].title != s[i].title
  }

  /** The elements of s whose title no earlier element has, in order. */
  function KeepFirst(s: seq<Recommendation>): (kept: seq<Recommendation>)
  {
    if s == [] then []
    else
      var p := s[..|s| - 1];
      KeepFirst(p) + (if s[|s| - 1].title in Titles(p) then [] else [s[|s| - 1]])
  }

  /** The de-duplication loop with its `seen_titles` set. */
  method Dedup(recs: seq<Recommendation>) returns (unique: seq<Recommendation>)
    ensures unique == KeepFirst(recs)
  {
    unique := [];
    var seen: set<string> := {};
    var i := 0;
    while i < |recs|
      invariant 0 <= i <= |recs|
      invariant unique == KeepFirst(recs[..i])
      invariant seen == Titles(recs[..i])
    {
      assert recs[..i + 1][..i] == recs[..i];
      assert Titles(recs[..i + 1]) == seen + {recs[i].title} by {
        assert recs[..i + 1] == recs[..i] + [recs[i]];
      }
      if recs[i].title !in seen {
        seen := seen + {recs[i].title};
        unique := unique + [recs[i]];
      }
      i := i + 1;
    }
    assert recs[..i] == recs;
  }

  /** De-duplication keeps exactly the set of titles, with no title twice, and every element kept is from the input. */
  lemma {:induction false} KeepFirstSpec(s: seq<Recommendation>)
    ensures Titles(KeepFirst(s)) == Titles(s)
    ensures DistinctTitles(KeepFirst(s))
    ensures forall r :: r in KeepFirst(s) ==> r in s
    decreases |s|
  {
    if s != [] {
      var p := s[..|s| - 1];
      var last := s[|s| - 1];
      KeepFirstSpec(p);
      assert s == p + [last];
      assert Titles(s) == Titles(p) + {last.title};
      var tail := if last.title in Titles(p) then [] else [last];
      assert KeepFirst(s) == KeepFirst(p) + tail;
      assert Titles(KeepFirst(s)) == Titles(KeepFirst(p)) + Titles(tail);
      forall i, j | 0 <= i < j < |KeepFirst(s)|
        ensures KeepFirst(s)[i].title != KeepFirst(s)[j].title
      {
        if j >= |KeepFirst(p)| {
          assert KeepFirst(s)[i] in KeepFirst(p);
        }
      }
    }
  }

  /** Every element kept is the first of its title in the input. */
  lemma {:induction false} KeepFirstKeepsFirst(s: seq<Recommendation>, k: int)
    requires 0 <= k < |KeepFirst(s)|
    ensures exists i :: 0 <= i < |s| && s[i] == KeepFirst(s)[k] && FirstOfTitle(s, i)
    decreases |s|
  {
    var p := s[..|s| - 1];
    var last := s[|s| - 1];
    if k < |KeepFirst(p)| {
      KeepFirstKeepsFirst(p, k);
      var i :| 0 <= i < |p| && p[i] == KeepFirst(p)[k] && FirstOfTitle(p, i);
      assert s[i] == KeepFirst(s)[k] && FirstOfTitle(s, i);
    } else {
      assert KeepFirst(s)[k] == last && last.title !in Titles(p);
      forall j | 0 <= j < |s| - 1
        ensures s[j].title != last.title
      {
        assert p[j] in p;
      }
      assert FirstOfTitle(s, |s| - 1);
    }
  }

  /** Dropping the last element keeps the titles distinct. */
  lemma DistinctTitlesPrefix(s: seq<Recommendation>)
    requires s != [] && DistinctTitles(s)
    ensures DistinctTitles(s[..|s| - 1])
  {
    var p := s[..|s| - 1];
    forall i, j | 0 <= i < j < |p|
      ensures p[i].title != p[j].title
    {
      assert p[i] == s[i] && p[j] == s[j];
    }
  }

  /** In a list with distinct titles, the last title occurs nowhere before it. */
  lemma LastTitleFresh(s: seq<Recommendation>)
    requires s != [] && DistinctTitles(s)
    ensures s[|s| - 1].title !in Titles(s[..|s| - 1])
  {
    var p := s[..|s| - 1];
    forall r | r in p
      ensures r.title != s[|s| - 1].title
    {
      var i :| 0 <= i < |p| && p[i] == r;
      assert s[i] == r;
    }
  }

  /** A list with no repeated title is left as it is. */
  lemma {:induction false} KeepFirstOfDistinct(s: seq<Recommendation>)
    requires DistinctTitles(s)
    ensures KeepFirst(s) == s
    decreases |s|
  {
    if s != [] {
      var p := s[..|s| - 1];
      DistinctTitlesPrefix(s);
      KeepFirstOfDistinct(p);
      LastTitleFresh(s);
      assert s == p + [s[|s| - 1]];
    }
  }

  /** De-duplicating twice, as save_project does, is the same as de-duplicating once. */
  lemma KeepFirstIdempotent(s: seq<Recommendation>)
    ensures KeepFirst(KeepFirst(s)) == KeepFirst(s)
  {
    KeepFirstSpec(s);
    KeepFirstOfDistinct(KeepFirst(s));
  }

  /** Python's s[:n]. */
  function Take(s: seq<Recommendation>, n: nat): (t: seq<Recommendation>)
    ensures |t| == if n <= |s| then n else |s|
    ensures t == s[..|t|]
  {
    if n <= |s| then s[..n] else s
  }

  /** A recommendation comes from a category whose hotspot fired, from the general list or from the project type. */
  predicate Selected(hot: Hotspots, cat: Catalogue, projectSpecific: seq<Recommendation>, r: Recommendation)
  {
    (hot.materials && r in cat.material) || (hot.equipment && r in cat.equipment)
    || (hot.electricity && r in cat.energy) || (hot.transport && r in cat.transport)
    || r in cat.general || r in projectSpecific
  }

  /** Nothing was selected: no fired hotspot has recommendations, and the general and project lists are empty. */
  predicate NothingSelected(hot: Hotspots, cat: Catalogue, projectSpecific: seq<Recommendation>)
  {
    (!hot.materials || cat.material == []) && (!hot.equipment || cat.equipment == [])
    && (!hot.electricity || cat.energy == []) && (!hot.transport || cat.transport == [])
    && cat.general == [] && projectSpecific == []
  }

  /**
   * The list before de-duplication: the catalogues of the fired hotspots, the general list and
   * the project-type list; when that is empty, a fixed slice of each catalogue instead.
   */
  function Assemble(hot: Hotspots, cat: Catalogue, projectSpecific: seq<Recommendation>): (all: seq<Recommendation>)
    ensures forall r :: r in cat.general ==> r in all
    ensures forall r :: r in projectSpecific ==> r in all
    ensures hot.materials ==> forall r :: r in cat.material ==> r in all
    ensures hot.equipment ==> forall r :: r in cat.equipment ==> r in all
    ensures hot.electricity ==> forall r :: r in cat.energy ==> r in all
    ensures hot.transport ==> forall r :: r in cat.transport ==> r in all
    ensures !NothingSelected(hot, cat, projectSpecific) ==> forall r :: r in all ==> Selected(hot, cat, projectSpecific, r)
    ensures NothingSelected(hot, cat, projectSpecific) ==>
              all == Take(cat.material, 2) + Take(cat.equipment, 2) + Take(cat.energy, 1) + Take(cat.transport, 1)
    ensures cat.general != [] ==> |all| >= |cat.general| + |projectSpecific|
  {
    var picked :=
      (if hot.materials then cat.material else [])
      + (if hot.equipment then cat.equipment else [])
      + (if hot.electricity then cat.energy else [])
      + (if hot.transport then cat.transport else [])
      + cat.general
      + projectSpecific;
    if picked == [] then
      Take(cat.material, 2) + Take(cat.equipment, 2) + Take(cat.energy, 1) + Take(cat.transport, 1) + Take(cat.general, 2)
    else
      picked
  }

  /**
   * The list generate_recommendations returns has distinct titles, keeps every title of the
   * assembled list (so every general and project-type title), and is left unchanged by a
   * second de-duplication.
   */
  lemma RecommendationsWellFormed(hot: Hotspots, cat: Catalogue, projectSpecific: seq<Recommendation>)
    ensures DistinctTitles(KeepFirst(Assemble(hot, cat, projectSpecific)))
    ensures Titles(KeepFirst(Assemble(hot, cat, projectSpecific))) == Titles(Assemble(hot, cat, projectSpecific))
    ensures Titles(cat.general) <= Titles(KeepFirst(Assemble(hot, cat, projectSpecific)))
    ensures Titles(projectSpecific) <= Titles(KeepFirst(Assemble(hot, cat, projectSpecific)))
    ensures KeepFirst(KeepFirst(Assemble(hot, cat, projectSpecific))) == KeepFirst(Assemble(hot, cat, projectSpecific))
  {
    var all := Assemble(hot, cat, projectSpecific);
    KeepFirstSpec(all);
    KeepFirstIdempotent(all);
  }

  /** generate_recommendations: assemble the list, then drop repeated titles. */
  method GenerateRecommendations(hot: Hotspots, cat: Catalogue, projectSpecific: seq<Recommendation>)
    returns (recs: seq<Recommendation>)
    ensures recs == KeepFirst(Assemble(hot, cat, projectSpecific))
    ensures DistinctTitles(recs)
  {
    var all := Assemble(hot, cat, projectSpecific);
    recs := Dedup(all);
    RecommendationsWellFormed(hot, cat, projectSpecific);
  }
}

=== FILE: scenarios.dfy ===
/** Trading scenarios (a full sale, a partial sale, two racing buyers) evaluated on concrete ledgers. */
module Scenarios {
  import opened Wrappers
  import opened Ledger
  import opened Listings
  import opened Trade
  import opened Conservation
  import opened Fixtures

  /** Full sale: list all 100 at 10 through create_marketplace_listing, buy all 100 through purchase_credits. */
  lemma FullSale()
    ensures var listed := ListAsWritten(Start(100.0), Seller, MarketplaceHandler, Some(1), Some(100.0), Some(10.0));
            listed.Ok? &&
            var bought := PurchaseCredits(listed.value, Buyer, 1, Some(100.0), Some(20), Some("ref-1"));
            bought.Ok? &&
            var st := bought.value;
            && st.listings[1].status == Sold && st.listings[1].quantityAvailable == 0.0
            && st.lots[1].used == 100.0 && Listed(st.lots[1]) == 0.0
            && st.lots[2].owner == Some(Buyer) && st.lots[2].earned == 100.0 && st.lots[2].project == 20
            && |st.log| == 1 && st.log[0].kind == PurchaseTx && st.log[0].totalPrice == Some(1000.0)
            && st.log[0].paymentReference == Some("ref-1")
  {
  }

  /** Partial sale: list all 50 at 20, buy 20 through purchase_credits. */
  lemma PartialSale()
    ensures var listed := ListAsWritten(Start(50.0), Seller, MarketplaceHandler, Some(1), Some(50.0), Some(20.0));
            listed.Ok? &&
            var bought := PurchaseCredits(listed.value, Buyer, 1, Some(20.0), Some(20), Some("ref-2"));
            bought.Ok? &&
            var st := bought.value;
            && st.listings[1].status == Active && st.listings[1].quantityAvailable == 30.0
            && st.lots[1].used == 20.0 && Listed(st.lots[1]) == 30.0
            && st.lots[2].earned == 20.0 && st.lots[2].value == 400.0
            && |st.log| == 1 && st.log[0].paymentReference == Some("ref-2")
  {
  }

  /** Two requests for 60 against a listing of 100: the first commits, the second is refused. */
  lemma RacingBuyers()
    ensures var listed := ListAsWritten(Start(100.0), Seller, MarketplaceHandler, Some(1), Some(100.0), Some(1.0));
            listed.Ok? &&
            var req := PurchaseRequest(Buyer, 1, 60.0, Some(20), DestinationLast, None);
            var first := Attempt(listed.value, req);
            first.Ok? && Attempt(first.value, req) == Err(NotEnoughCredits)
            && SoldOn(listed.value, [req, req], 1) == 60.0
  {
    var st := ListAsWritten(Start(100.0), Seller, MarketplaceHandler, Some(1), Some(100.0), Some(1.0)).value;
    var req := PurchaseRequest(Buyer, 1, 60.0, Some(20), DestinationLast, None);
    var st1 := Apply(st, req);
    assert st1.listings[1].quantityAvailable == 40.0;
    assert SoldOn(st1, [req], 1) == 0.0;
  }

  /**
   * With a foreign destination and a missing listing, the intended buy_credits (destination
   * first) reports the destination, purchase_credits (destination last) reports the listing,
   * and buy_credits as written fails with a 500.
   */
  lemma CheckOrderDecidesError()
    ensures BuyCredits(Start(10.0), Buyer, 5, Some(1.0), Some(10)) == Err(InvalidDestination)
    ensures PurchaseCredits(Start(10.0), Buyer, 5, Some(1.0), Some(10), None) == Err(ListingNotFound)
    ensures BuyCreditsAsWritten(Start(10.0), Buyer, 5, Some(1.0), Some(10)) == Err(Internal)
  {
  }
}

=== FILE: sums.dfy ===
/** Finite sums over the id range [0, n), used to total quantities across ledger rows. */
module Sums {

  /** f(0) + f(1) + ... + f(n - 1). */
  function RangeSum(f: nat -> real, n: nat): (sum: real)
  {
    if n == 0 then 0.0 else RangeSum(f, n - 1) + f(n - 1)
  }

  /** Sums of functions that agree below n are equal. */
  lemma {:induction false} RangeSumFrame(f: nat -> real, g: nat -> real, n: nat)
    requires forall i: nat :: i < n ==> f(i) == g(i)
    ensures RangeSum(f, n) == RangeSum(g, n)
  {
    if n > 0 {
      RangeSumFrame(f, g, n - 1);
    }
  }

  /** Changing one term below n changes the sum by exactly that term's difference. */
  lemma {:induction false} RangeSumPoint(f: nat -> real, g: nat -> real, j: nat, n: nat)
    requires j < n
    requires forall i: nat :: i < n && i != j ==> f(i) == g(i)
    ensures RangeSum(g, n) == RangeSum(f, n) - f(j) + g(j)
  {
    if j == n - 1 {
      RangeSumFrame(f, g, n - 1);
    } else {
      RangeSumPoint(f, g, j, n - 1);
    }
  }

  /** A sum of non-negative terms bounds each of its terms. */
  lemma {:induction false} RangeSumCovers(f: nat -> real, j: nat, n: nat)
    requires j < n
    requires forall i: nat :: i < n ==> f(i) >= 0.0
    ensures RangeSum(f, n) >= f(j)
  {
    if j < n - 1 {
      RangeSumCovers(f, j, n - 1);
    } else {
      RangeSumNonNegative(f, n - 1);
    }
  }

  /** A sum of non-negative terms is non-negative. */
  lemma {:induction false} RangeSumNonNegative(f: nat -> real, n: nat)
    requires forall i: nat :: i < n ==> f(i) >= 0.0
    ensures RangeSum(f, n) >= 0.0
  {
    if n > 0 {
      RangeSumNonNegative(f, n - 1);
    }
  }

  /** A sum of zero terms is zero. */
  lemma {:induction false} RangeSumZero(f: nat -> real, n: nat)
    requires forall i: nat :: i < n ==> f(i) == 0.0
    ensures RangeSum(f, n) == 0.0
  {
    if n > 0 {
      RangeSumZero(f, n - 1);
    }
  }
}

=== FILE: trade.dfy ===
/**
 * Trade Engine: one purchase operation behind the three purchase handlers
 * (buy_credits, purchase_credits, complete_purchase), which differ only in when
 * they check the destination project and which payment reference they record.
 */
module Trade {
  import opened Wrappers
  import opened Ledger

  /** When the destination project's ownership is checked. */
  datatype CheckOrder =
    | DestinationFirst   // buy_credits: before the listing is read
    | DestinationLast    // purchase_credits, complete_purchase: after the quantity check

  /** A destination was chosen: present and truthy (`not destination_project_id` refuses None and 0). */
  predicate Chosen(destination: Option<ProjectId>)
  {
    destination.Some? && destination.value != 0
  }

  /** A destination was chosen, and that project exists and belongs to the buyer. */
  predicate OwnsDestination(st: Ledger, buyer: UserId, destination: Option<ProjectId>)
  {
    Chosen(destination) && destination.value in st.projects && st.projects[destination.value] == buyer
  }

  /** The listing row exists, is active, and its lot exists (the JOIN in the lookup). */
  predicate OpenListing(st: Ledger, id: Option<ListingId>)
  {
    id.Some? && id.value in st.listings && st.listings[id.value].status == Active
    && st.listings[id.value].lot in st.lots
  }

  /** The purchase record appended on success. */
  function PurchaseRecord(st: Ledger, buyer: UserId, id: ListingId, quantity: real,
                          destination: ProjectId, payment: Option<string>): (tx: Transaction)
    requires id in st.listings && st.listings[id].lot in st.lots
  {
    var l := st.listings[id];
    Transaction(PurchaseTx, l.seller, Some(buyer), quantity, st.lots[l.lot].project, Some(destination),
                id, l.price, Some(quantity * l.price), payment)
  }

  /**
   * One purchase. The checks run in the handlers' order, the first failure wins and
   * nothing is written; otherwise the listing is decremented (and marked sold when it
   * reaches 0), the seller's lot moves q from listed to used, a lot of q credits is
   * minted for the buyer on the destination project, and a PURCHASE record is logged.
   */
  function Purchase(st: Ledger, buyer: UserId, listingId: Option<ListingId>, quantity: real,
                    destination: Option<ProjectId>, order: CheckOrder,
                    payment: Option<string>): (r: Result<Ledger, Error>)
    // success does not depend on the order of the checks
    ensures r.Ok? <==>
      && quantity > 0.0
      && OwnsDestination(st, buyer, destination)
      && OpenListing(st, listingId)
      && st.listings[listingId.value].seller != buyer
      && quantity <= st.listings[listingId.value].quantityAvailable
    ensures quantity <= 0.0 ==> r == Err(InvalidQuantity)
    ensures quantity > 0.0 && !Chosen(destination) ==> r == Err(MissingDestination)
    ensures quantity > 0.0 && Chosen(destination) && !OpenListing(st, listingId) &&
            (order.DestinationLast? || OwnsDestination(st, buyer, destination)) ==>
              r == Err(ListingNotFound)
    ensures order.DestinationFirst? && quantity > 0.0 && Chosen(destination) && !OwnsDestination(st, buyer, destination) ==>
              r == Err(InvalidDestination)
    ensures quantity > 0.0 && Chosen(destination) && OpenListing(st, listingId) &&
            (order.DestinationLast? || OwnsDestination(st, buyer, destination)) &&
            st.listings[listingId.value].seller == buyer ==>
              r == Err(SelfPurchase)
    ensures quantity > 0.0 && Chosen(destination) && OpenListing(st, listingId) &&
            (order.DestinationLast? || OwnsDestination(st, buyer, destination)) &&
            st.listings[listingId.value].seller != buyer &&
            quantity > st.listings[listingId.value].quantityAvailable ==>
              r == Err(NotEnoughCredits)
    ensures order.DestinationLast? && quantity > 0.0 && Chosen(destination) && OpenListing(st, listingId) &&
            st.listings[listingId.value].seller != buyer &&
            quantity <= st.listings[listingId.value].quantityAvailable &&
            !OwnsDestination(st, buyer, destination) ==>
              r == Err(InvalidDestination)
    // no self-trade, whatever the quantity
    ensures OpenListing(st, listingId) && st.listings[listingId.value].seller == buyer ==> r.Err?
    // no oversell
    ensures OpenListing(st, listingId) && quantity > st.listings[listingId.value].quantityAvailable ==> r.Err?
    ensures r.Ok? ==>
      var id := listingId.value;
      var l := st.listings[id];
      var seller := st.lots[l.lot];
      var rest := l.quantityAvailable - quantity;
      && r.value.projects == st.projects
      && r.value.nextProject == st.nextProject
      && r.value.nextListing == st.nextListing
      && r.value.nextLot == st.nextLot + 1
      // the listing: decremented, sold exactly when nothing is left
      && r.value.listings.Keys == st.listings.Keys
      && (forall i :: i in st.listings && i != id ==> r.value.listings[i] == st.listings[i])
      && r.value.listings[id].quantityAvailable == rest >= 0.0
      && r.value.listings[id].status == (if rest == 0.0 then Sold else Active)
      && r.value.listings[id].(quantityAvailable := l.quantityAvailable, status := Active) == l
      // the buyer's new lot, under the next SERIAL id
      && st.nextLot in r.value.lots
      && r.value.lots[st.nextLot] ==
           Lot(Some(buyer), destination.value, quantity, 0.0, Some(0.0), quantity * l.price, Purchased, StatusAvailable)
      // the seller's lot: used += q, listed := max(listed - q, 0), nothing else
      && (st.nextLot !in st.lots ==>
            && r.value.lots.Keys == st.lots.Keys + {st.nextLot}
            && (forall k :: k in st.lots && k != l.lot ==> r.value.lots[k] == st.lots[k])
            && r.value.lots[l.lot].used == seller.used + quantity
            && Listed(r.value.lots[l.lot]) == (if Listed(seller) >= quantity then Listed(seller) - quantity else 0.0)
            && r.value.lots[l.lot].(used := seller.used, listed := seller.listed) == seller)
      // one audit record
      && r.value.log == st.log + [PurchaseRecord(st, buyer, id, quantity, destination.value, payment)]
  {
    if quantity <= 0.0 then
      Err(InvalidQuantity)
    else if !Chosen(destination) then
      Err(MissingDestination)
    else if order.DestinationFirst? && !OwnsDestination(st, buyer, destination) then
      Err(InvalidDestination)
    else if !OpenListing(st, listingId) then
      Err(ListingNotFound)
    else
      var id := listingId.value;
      var l := st.listings[id];
      if l.seller == buyer then
        Err(SelfPurchase)
      else if quantity > l.quantityAvailable then
        Err(NotEnoughCredits)
      else if order.DestinationLast? && !OwnsDestination(st, buyer, destination) then
        Err(InvalidDestination)
      else
        var newQuantity := l.quantityAvailable - quantity;
        var l' := if newQuantity <= 0.0 then l.(quantityAvailable := 0.0, status := Sold)
                  else l.(quantityAvailable := newQuantity);
        var seller := st.lots[l.lot];
        // GREATEST(listed - q, 0); with a NULL listed, GREATEST(NULL, 0) is 0 as well
        var listed' := if Listed(seller) - quantity > 0.0 then Listed(seller) - quantity else 0.0;
        var seller' := seller.(used := seller.used + quantity, listed := Some(listed'));
        var minted := Lot(Some(buyer), destination.value, quantity, 0.0, Some(0.0),
                          quantity * l.price, Purchased, StatusAvailable);
        var st1 := st.(listings := st.listings[id := l'], lots := st.lots[l.lot := seller']);
        var st2 := Mint(st1, minted);
        Ok(st2.(log := st.log + [PurchaseRecord(st, buyer, id, quantity, destination.value, payment)]))
  }

  /** The purchase quantity as read by `float(data.get('quantity', 0))`: None is an explicit JSON null, on which float() raises. */
  function PurchaseWith(st: Ledger, buyer: UserId, listingId: Option<ListingId>, quantity: Option<real>,
                        destination: Option<ProjectId>, order: CheckOrder, payment: Option<string>): (r: Result<Ledger, Error>)
    ensures quantity.None? ==> r == Err(Internal)
    ensures quantity.Some? ==> r == Purchase(st, buyer, listingId, quantity.value, destination, order, payment)
  {
    if quantity.None? then Err(Internal)
    else Purchase(st, buyer, listingId, quantity.value, destination, order, payment)
  }

  /**
   * buy_credits as intended: destination checked first, payment recorded as `DUMMY_PAYMENT`.
   * As written the handler never commits (see `BuyCreditsAsWritten`).
   */
  function BuyCredits(st: Ledger, buyer: UserId, listingId: ListingId, quantity: Option<real>,
                      destination: Option<ProjectId>): (r: Result<Ledger, Error>)
    ensures quantity.None? ==> r == Err(Internal)
    ensures quantity.Some? && quantity.value > 0.0 && Chosen(destination) && !OwnsDestination(st, buyer, destination) ==>
              r == Err(InvalidDestination)
    ensures quantity.Some? ==>
              r == Purchase(st, buyer, Some(listingId), quantity.value, destination, DestinationFirst, Some("DUMMY_PAYMENT"))
    ensures r.Ok? ==> |r.value.log| > 0 && r.value.log[|r.value.log| - 1].paymentReference == Some("DUMMY_PAYMENT")
  {
    PurchaseWith(st, buyer, Some(listingId), quantity, destination, DestinationFirst, Some("DUMMY_PAYMENT"))
  }

  /**
   * buy_credits as written. The checks before the connection opens (quantity, then a
   * destination given) answer as usual. After that its queries have started a transaction
   * when it sets `autocommit` before the writes, and again in its `finally` block (on a
   * connection it may already have closed); the driver raises on both. So every path past
   * the connection ends in a 500 and nothing is committed.
   */
  function BuyCreditsAsWritten(st: Ledger, buyer: UserId, listingId: ListingId, quantity: Option<real>,
                               destination: Option<ProjectId>): (r: Result<Ledger, Error>)
    ensures r.Err?
    ensures quantity.None? ==> r == Err(Internal)
    ensures quantity.Some? && quantity.value <= 0.0 ==> r == Err(InvalidQuantity)
    ensures quantity.Some? && quantity.value > 0.0 && !Chosen(destination) ==> r == Err(MissingDestination)
    ensures quantity.Some? && quantity.value > 0.0 && Chosen(destination) ==> r == Err(Internal)
  {
    if quantity.None? then Err(Internal)
    else if quantity.value <= 0.0 then Err(InvalidQuantity)
    else if !Chosen(destination) then Err(MissingDestination)
    else Err(Internal)
  }

  /** purchase_credits: destination checked last, the caller's payment reference (possibly NULL) recorded. */
  function PurchaseCredits(st: Ledger, buyer: UserId, listingId: ListingId, quantity: Option<real>,
                           destination: Option<ProjectId>, payment: Option<string>): (r: Result<Ledger, Error>)
    ensures quantity.None? ==> r == Err(Internal)
    ensures quantity.Some? && quantity.value > 0.0 && Chosen(destination) && !OpenListing(st, Some(listingId)) ==>
              r == Err(ListingNotFound)
    ensures quantity.Some? ==>
              r == Purchase(st, buyer, Some(listingId), quantity.value, destination, DestinationLast, payment)
    ensures r.Ok? ==> |r.value.log| > 0 && r.value.log[|r.value.log| - 1].paymentReference == payment
  {
    PurchaseWith(st, buyer, Some(listingId), quantity, destination, DestinationLast, payment)
  }

  /** A Python `or` chain over optional strings: the first present, non-empty one. */
  function FirstTruthy(a: Option<string>, b: Option<string>, default: string): (s: string)
    ensures s == default || Some(s) == a || Some(s) == b
    ensures a.Some? && a.value != "" ==> s == a.value
    ensures (a.None? || a.value == "") && b.Some? && b.value != "" ==> s == b.value
    ensures (a.None? || a.value == "") && (b.None? || b.value == "") ==> s == default
  {
    if a.Some? && a.value != "" then a.value
    else if b.Some? && b.value != "" then b.value
    else default
  }

  /** The `paymentDetails` field of a complete_purchase body. */
  datatype PaymentDetails =
    | NoDetails                              // absent: `data.get('paymentDetails', {})` gives {}
    | DetailsObject(reference: Option<string>)
    | DetailsNotObject                       // null or a non-object: `.get` raises AttributeError

  /** The reference `paymentDetails.reference` supplies, when it can be read. */
  function DetailsReference(details: PaymentDetails): (ref: Option<string>)
  {
    match details
    case DetailsObject(reference) => reference
    case _ => None
  }

  /**
   * complete_purchase: as purchase_credits, with the listing id taken from the body and the
   * payment reference taken from `payment_reference`, then `paymentDetails.reference`,
   * then `LEGACY_PAYMENT`. Reading `paymentDetails` raises when it is null or not an object,
   * which happens only when `payment_reference` is falsy.
   */
  function CompletePurchase(st: Ledger, buyer: UserId, listingId: Option<ListingId>, quantity: Option<real>,
                            destination: Option<ProjectId>,
                            payment: Option<string>, details: PaymentDetails): (r: Result<Ledger, Error>)
    ensures quantity.None? ==> r == Err(Internal)
    ensures (payment.None? || payment.value == "") && details.DetailsNotObject? ==> r == Err(Internal)
    ensures payment.Some? && payment.value != "" && quantity.Some? ==>
              r == Purchase(st, buyer, listingId, quantity.value, destination, DestinationLast, payment)
    ensures quantity.Some? && !((payment.None? || payment.value == "") && details.DetailsNotObject?) ==>
              r == Purchase(st, buyer, listingId, quantity.value, destination, DestinationLast,
                            Some(FirstTruthy(payment, DetailsReference(details), "LEGACY_PAYMENT")))
    ensures r.Ok? && (payment.None? || payment.value == "") && details.DetailsObject? &&
            details.reference.Some? && details.reference.value != "" ==>
              |r.value.log| > 0 && r.value.log[|r.value.log| - 1].paymentReference == details.reference
    ensures r.Ok? ==> |r.value.log| > 0 && r.value.log[|r.value.log| - 1].paymentReference.Some?
    ensures r.Ok? && (payment.None? || payment.value == "") &&
            (details.NoDetails? || (details.DetailsObject? && (details.reference.None? || details.reference.value == ""))) ==>
              |r.value.log| > 0 && r.value.log[|r.value.log| - 1].paymentReference == Some("LEGACY_PAYMENT")
  {
    if quantity.None? then
      Err(Internal)
    else if (payment.None? || payment.value == "") && details.DetailsNotObject? then
      Err(Internal)
    else
      PurchaseWith(st, buyer, listingId, quantity, destination, DestinationLast,
                   Some(FirstTruthy(payment, DetailsReference(details), "LEGACY_PAYMENT")))
  }

  /** The three handlers commit the same purchase; the check order only decides which error a bad request gets. */
  lemma CheckOrderOnlyChangesError(st: Ledger, buyer: UserId, listingId: Option<ListingId>, quantity: real,
                                   destination: Option<ProjectId>, payment: Option<string>)
    ensures Purchase(st, buyer, listingId, quantity, destination, DestinationFirst, payment).Ok?
            <==> Purchase(st, buyer, listingId, quantity, destination, DestinationLast, payment).Ok?
    ensures Purchase(st, buyer, listingId, quantity, destination, DestinationFirst, payment).Ok? ==>
            Purchase(st, buyer, listingId, quantity, destination, DestinationFirst, payment)
            == Purchase(st, buyer, listingId, quantity, destination, DestinationLast, payment)
  {
    var first := Purchase(st, buyer, listingId, quantity, destination, DestinationFirst, payment);
    var last := Purchase(st, buyer, listingId, quantity, destination, DestinationLast, payment);
    if quantity <= 0.0 || !Chosen(destination) {
      assert first.Err? && last.Err?;
    } else if !OwnsDestination(st, buyer, destination) {
      assert first == Err(InvalidDestination);
      assert last.Err?;
    } else if !OpenListing(st, listingId) {
      assert first == Err(ListingNotFound) == last;
    } else {
      // both orders reach the same listing checks and, past them, the same commit
      assert first == last;
    }
  }
}

=== FILE: wrappers.dfy ===
/** Option and Result, the failure-compatible wrappers used by every operation of the ledger. */
module Wrappers {

  /** A value that may be absent: a SQL NULL, a missing request field or a failed parse. */
  datatype Option<+T> = None | Some(value: T)

  /** The outcome of one database transaction: the committed state, or the error that rolled it back. */
  datatype Result<+T, +E> = Ok(value: T) | Err(error: E)
}
